=== FILE: README.md ===
# Multiplexed UDP/TCP echo server: a Dafny model of its readiness loop

The server listens on one port with a datagram socket and a stream socket. It
registers both with an epoll instance. It then loops forever: it waits for
readiness events and routes each one. A readable datagram socket leads to a
datagram echo. A readable listening socket leads to an accept into the
connection table `tcp_usr_sock` (four entries, 0 = free). A readable
established connection leads to a stream echo.

This project models that loop as it is written in `epoll.c`, except for the
free-entry scan and the "no space" guard: both are corrected in the main model
and modelled as written, beside it, in `AsWritten` (see Findings). It also
models the two echo handlers and the helper `MaxDesc`. The operating system is an input:

- descriptors are plain integers;
- the contents of the epoll event array after each `epoll_wait` are a sequence
  of `(fd, readable)` pairs;
- `recvfrom`/`recv` results are byte sequences or a failure;
- `accept` returns a descriptor, negative on failure;
- the success of `sendto` and of each `epoll_ctl` is a boolean;
- whether the peer of a stream connection has reset it is a boolean. The echo's
  `write` to such a connection raises SIGPIPE. The source installs no handler
  and does not pass `MSG_NOSIGNAL`, so the signal's default action ends the
  whole process (status `Killed`).

Modules:

- `Net` (`net.dfy`): constants (`BufLen` 512, `MaxTcpUsers` 4, `MaxEvents`
  6), bytes, the effects a peer can observe (`SendTo`, `Write`, `Close`), and
  `FirstIndexOf`. `FirstIndexOf` is the search behind both the free-entry scan
  and `strlen`.
- `Handlers` (`handlers.dfy`): `HandleUDPConnection`,
  `HandleTCPConnection` and `MaxDesc` as functions.
- `Dispatch` (`dispatch.dfy`): the loop as functions over a value `State`:
  one event (`DispatchEvent`), a prefix of one pass of the inner `for` loop
  (`PassPrefix`), and a prefix of a bounded run of the outer `while (true)`
  (`RunPrefix`). The lemmas about the table and the routing are here.
- `EpollServer` (`server.dfy`): class `Server`, the imperative form. It holds
  `slots: array<int>` (`tcp_usr_sock`), which is zeroed by a loop, scanned by
  a loop and written in place. It also holds `registered: set<int>`, which grows
  through `epoll_ctl`. Each method of the loop (`FindFreeSlot`, the three
  checks, `DispatchEvent`, `RunPass`, `NextPass`, `Run`) is proved equal to the
  matching `Dispatch` function. The constructor is proved to reach
  `EmptyTable()`, and `RegisterListeners` states the registered set it leaves
  directly.
- `AsWritten` (`as_written.dfy`): the free-entry scan and the "no space" guard
  exactly as written, for the two defects listed under Findings.

The code does not meet several expectations a reader of an echo server might
have; the model follows the code:

- A failed `accept` ends `main` (epoll.c:181-184). It is not a per-peer error.
- A peer disconnect never frees its table entry. `HandleTCPConnection` zeroes
  only its own parameter (epoll.c:108), so the entry keeps the closed
  descriptor. Once all four entries have been used, the table stays full
  (`Dispatch.FullTableStaysFull`). Under the corrected guard every later
  connection is then closed right after accept (`Dispatch.AcceptWhenFull`); as
  written, it is stored past the end of the table, at `tcp_usr_sock[4]`
  (`AsWritten.FullTableAccessesPastEnd`).
- An established connection is recognised only when the event at index `i`
  names the descriptor stored at table index `i` (epoll.c:199). The lookup is
  not keyed by descriptor.
- The stream echo length is `strlen(buf)` (epoll.c:112), not the received
  count.
- The three checks are independent `if`s (epoll.c:166-200), not `else if`s.

## Model

| member | source | states |
|---|---|---|
| `Net.FirstIndexOf` | epoll.c:177-179 | the result is the least index holding the value, or the length exactly when the value does not occur |
| `Handlers.HandleUdpConnection` | epoll.c:73-94 | returns 0 or -1; 0 exactly when the receive and the send both succeed, and then exactly the received bytes go to the sender's address; on -1 nothing is delivered |
| `Handlers.HandleTcpConnection` | epoll.c:102-114 | a zero-length receive (and only that) disconnects; an echo is the received bytes before the first zero byte, which lies within the data; a failed receive or data with no zero byte reaches strlen on unknown bytes (undefined) |
| `Handlers.TcpEchoOfTerminatedMessage` | epoll.c:112 | a zero-free message followed by a zero byte and anything else is echoed as exactly the message |
| `Handlers.TcpEchoDropsBytesAfterZero` | epoll.c:112 | the payload [1, 0, 2] is echoed as [1]: bytes after an embedded zero are lost |
| `Handlers.MaxDesc` | epoll.c:96-100 | the result is at least nfds and at least desc, is nfds or desc + 1, and exceeds desc exactly when desc differs from nfds |
| `Handlers.MaxDescIdempotent` | epoll.c:96-100 | applying MaxDesc twice with the same desc gives the same result |
| `Dispatch.EmptyTable` | epoll.c:128-129 | the initial table has MAX_TCP_USERS entries, all 0 |
| `Dispatch.Valid` | epoll.c:146-156 | the loop invariant: both listening descriptors are registered (epoll.c:146-156) and so is every descriptor stored in the table (epoll.c:190-192); its ensures restates the last part by membership: every non-zero descriptor in the table is registered |
| `Dispatch.FreeSlot` | epoll.c:177-179 | the corrected scan: the result is at most the table length, is a free entry when below it, and every entry before it is occupied |
| `Dispatch.UdpBranch` | epoll.c:166-169 | the datagram check never changes the state; its outcomes are stated by `Dispatch.UdpBranchOutcome` |
| `Dispatch.UdpBranchOutcome` | epoll.c:166-169 | the datagram check fires exactly on a readable event for the datagram socket; when it does not fire it sends nothing and keeps running; it can only end main with a UDP failure, and then sends nothing |
| `Dispatch.AcceptBranch` | epoll.c:174-198 | the corrected new-connection check keeps both listening descriptors and only adds registrations; its effect on the table is stated by `Dispatch.AcceptBranchOutcome` |
| `Dispatch.AcceptBranchOutcome` | epoll.c:174-198 | the check fires exactly on a readable event for the listening socket; the table either stays or gets the accepted descriptor at the least free entry; the only thing sent is the close of a connection that found the table full, and then the state is unchanged; it ends main with an accept failure exactly when a readable listener event meets a negative accept, and with a registration failure exactly when such an event meets a successful accept, a free entry and a failed epoll_ctl, and ends it in no other way |
| `Dispatch.EstablishedBranch` | epoll.c:199-200 | the established check never changes the state, since the handler gets a copy of the entry; its outcomes are stated by `Dispatch.EstablishedBranchOutcome` |
| `Dispatch.EstablishedBranchOutcome` | epoll.c:199-200 | at most one write or close, addressed to the descriptor at entry i; nothing is sent when strlen would read unknown bytes; the check never ends main by an exit, but ends the process by SIGPIPE exactly when it echoes on a matching readable event to a connection the peer has reset, and then nothing is delivered |
| `Dispatch.DispatchEvent` | epoll.c:159-200 | one iteration keeps the table at MAX_TCP_USERS entries |
| `Dispatch.PassPrefix` | epoll.c:159-201 | every prefix of a pass keeps the table at MAX_TCP_USERS entries |
| `Dispatch.RunPrefix` | epoll.c:157-202 | every prefix of a run keeps the table at MAX_TCP_USERS entries |
| `Dispatch.FreeSlotIsLeastFree` | epoll.c:176-179 | the free-entry search yields the least free index, and MAX_TCP_USERS exactly when every entry is occupied |
| `Dispatch.OccupiedAfterStore` | epoll.c:190 | storing a non-zero descriptor in a free entry occupies exactly one more entry |
| `Dispatch.AcceptIntoFreeSlot` | epoll.c:174-196 | with a free entry and successful accept and registration, exactly the least free entry becomes the new descriptor, it is registered, every other entry is unchanged and nothing is sent |
| `Dispatch.AcceptWhenFull` | epoll.c:186-188 | under the corrected guard, with a full table the accepted descriptor is closed, the state (table and registered set) is unchanged, and the table still holds MAX_TCP_USERS descriptors |
| `Dispatch.WaitFailureEndsMain` | epoll.c:161-164 | an event ends main with the wait failure exactly when epoll_wait fails, and then before any check runs, with the state unchanged and nothing sent |
| `Dispatch.AcceptFailureEndsMain` | epoll.c:174-184 | a readable listener event whose accept fails ends main with the state unchanged and nothing stored, registered or sent |
| `Dispatch.RegisterFailureEndsMain` | epoll.c:190-195 | with a free entry, a successful accept and a failed epoll_ctl, main ends after the descriptor is stored at the least free entry, without registering it and without sending anything |
| `Dispatch.DispatchChanges` | epoll.c:166-200 | one event keeps both listening descriptors, only adds registrations, and either leaves the table as it was or stores the accepted descriptor at the least free entry |
| `Dispatch.DispatchExtends` | epoll.c:166-200 | one event never frees or overwrites an occupied entry, changes at most one entry, never unregisters, and grows the occupied count by at most one |
| `Dispatch.DispatchPreservesValid` | epoll.c:190-195 | an event that leaves the loop running preserves: listeners registered, every stored descriptor registered |
| `Dispatch.RoutesInSourceOrder` | epoll.c:166-200 | the checks that fire do so in the order datagram, new connection, established connection |
| `Dispatch.RoutingConditions` | epoll.c:166-200 | each check fires exactly when the event is readable, names its descriptor, and no earlier check ended main; the established check reads the table after the accept check |
| `Dispatch.EstablishedIsPositional` | epoll.c:199-200 | an event whose descriptor is neither listener nor the entry at the event's own index changes nothing and sends nothing |
| `Dispatch.EstablishedAtOwnIndex` | epoll.c:199-200 | an event naming the entry at its own index runs the stream handler on that descriptor and nothing else; an echo to a reset connection ends the process instead |
| `Dispatch.ReadyConnectionNotServed` | epoll.c:199-200 | a readable connection stored at index 2 but reported at index 0 is not served; reported at index 2 it is echoed |
| `Dispatch.ResetPeerKillsServer` | epoll.c:112 | a client that resets its connection and is echoed to ends the process by SIGPIPE: nothing is delivered, and the pass, and with it the server, stops for every client |
| `Dispatch.DisconnectKeepsSlot` | epoll.c:102-110 | a zero-length receive closes the descriptor and writes nothing; the table and registered set are unchanged |
| `Dispatch.UdpEventEchoes` | epoll.c:166-169 | a datagram event echoes the received bytes to the sender and keeps running; a receive or send failure ends main with nothing sent |
| `Dispatch.PassStops` | epoll.c:159-201 | once an iteration ends main, reaches undefined behaviour or ends the process, the rest of the pass adds nothing |
| `Dispatch.RunStops` | epoll.c:157-202 | once a pass stops the loop, later passes add nothing |
| `Dispatch.PassExtends` | epoll.c:159-201 | a pass never frees or overwrites an occupied entry and never unregisters a descriptor |
| `Dispatch.PassKeepsValid` | epoll.c:159-201 | a pass that leaves the loop running preserves the loop invariant |
| `Dispatch.RunExtends` | epoll.c:157-202 | any bounded run never frees or overwrites an occupied entry and never unregisters a descriptor |
| `Dispatch.RunKeepsValid` | epoll.c:157-202 | any bounded run that leaves the loop running preserves the loop invariant |
| `Dispatch.RunComplete` | epoll.c:157-202 | a run prefix that has used every pass, or has stopped, is the whole run; it keeps occupied entries and, while running, the loop invariant |
| `Dispatch.FullTableStaysFull` | epoll.c:102-110 | once every entry is occupied, the table never changes again in any run and the free-entry search always reports it full |
| `Dispatch.ConnectDuringPass` | epoll.c:174-196 | a client accepted at index n of a pass, while the least free entry is n, takes entry n and is registered, with nothing sent |
| `Dispatch.ConnectionsFillInOrder` | epoll.c:174-196 | from an empty table, the first n clients connecting at indices 0 .. n - 1 of a pass take entries 0 .. n - 1 in order and are all registered, with nothing sent |
| `Dispatch.FourConnectionsFillTable` | epoll.c:174-196 | four connections in one pass take entries 0 to 3 in order and are all registered, with nothing sent |
| `Dispatch.FifthConnectionClosed` | epoll.c:186-188 | after those four, under the corrected guard, a fifth accepted connection is closed and the state is unchanged |
| `EpollServer.Server.constructor` | epoll.c:128-129 | the zeroing loop leaves every entry 0; nothing is registered yet |
| `EpollServer.Server.RegisterListeners` | epoll.c:146-156 | registers the datagram then the listening socket, stopping at the first failure; on success the loop invariant holds |
| `EpollServer.Server.FindFreeSlot` | epoll.c:176-179 | the scan, testing the bound first, returns the least free index or MAX_TCP_USERS, never reading past the array |
| `EpollServer.Server.CheckDatagram` | epoll.c:166-169 | the datagram check's effects, route and status equal `Dispatch.UdpBranch`, and the state is untouched |
| `EpollServer.Server.CheckNewConnection` | epoll.c:174-198 | the scan, accept and in-place store give the state, effects, route and status of `Dispatch.AcceptBranch` on the old state |
| `EpollServer.Server.CheckEstablished` | epoll.c:199-200 | the established check's effects, route and status equal `Dispatch.EstablishedBranch`, and the state is untouched |
| `EpollServer.Server.DispatchEvent` | epoll.c:161-200 | the in-place table update, registered set, effects, routes and status equal `Dispatch.DispatchEvent` of the old state; the invariant is preserved |
| `EpollServer.Server.RunPass` | epoll.c:159-201 | the `for` loop's result equals `Dispatch.PassPrefix` over the whole pass |
| `EpollServer.Server.NextPass` | epoll.c:157-201 | one more pass after a running prefix of the run extends it by exactly that pass |
| `EpollServer.Server.Run` | epoll.c:157-202 | a bounded run equals `Dispatch.RunPrefix`; no entry is freed and the invariant is preserved |
| `AsWritten.ScanFrom` | epoll.c:178 | the scan as written stops at or after its start and within the table, at a free entry when it stops inside the table, after passing only occupied entries; it reads past the end exactly when it stops at the table length |
| `AsWritten.GuardAsWritten` | epoll.c:187-190 | the guard as written: for every event index the inner loop reaches (below MAX_TCP_USERS) it stores at the scan's index, whatever that index is |
| `AsWritten.GuardOnSlot` | epoll.c:187-190 | the corrected guard: for any scan result up to MAX_TCP_USERS it closes exactly when the result is MAX_TCP_USERS, and otherwise stores at that index, which lies inside the table |
| `AsWritten.AcceptBranchFollowsGuardOnSlot` | epoll.c:187-196 | after a successful accept, the new-connection check of `Dispatch` closes the descriptor exactly when the corrected guard on the least free entry says close (leaving the state unchanged), and otherwise stores it at the index the guard names |
| `AsWritten.ScanFromMatchesFreeSlot` | epoll.c:177-179 | the scan as written stops at the same index as the corrected one, and reads past the end exactly when no entry is free |
| `AsWritten.FullTableAccessesPastEnd` | epoll.c:176-190 | with a full table and any event index 0..3, the scan as written reads index 4, the guard as written stores at index 4, and the slot-index guard closes instead |
| `AsWritten.GuardsAgreeWithFreeSlot` | epoll.c:186-190 | with a free entry the scan as written does not read past the end and both guards choose the same entry |
| `AsWritten.FifthConnectionWrittenPastEnd` | epoll.c:186-190 | table [5, 6, 7, 8] and the listener reported at index 1: the code as written writes tcp_usr_sock[4] |

## Left out

- Socket creation, binding and listening (`CreateSockets`, `BindnListen`,
  `InitializeAddr`, epoll.c:20-70, 131-139) are left out. They are operating
  system setup, and only their success or failure matters. The model starts
  from two given descriptors. The uninitialised return of `CreateSockets` for
  an unknown type (epoll.c:48) is never reached from `main`.
- The kernel behind `epoll_create`, `epoll_ctl` and `epoll_wait`. The event
  array's contents after each wait, and each call's success, are inputs. So
  every property holds whatever the kernel reports, stale entries included,
  since `main` ignores the count `epoll_wait` returns (epoll.c:161). The
  result of `epoll_create` (epoll.c:144) is not checked by the code. Its
  failure shows up as a failing `epoll_ctl`.
- `registered` records what was added with `EPOLL_CTL_ADD`. The kernel's
  implicit removal of a closed descriptor from the epoll set is not modelled.
- `printf`, `perror` and `fflush` are logging only.
- The outer `while (true)` does not terminate. `Server.Run` models any finite
  number of passes.
- `Handlers.HandleUdpConnection`: does not model the uninitialised `slen`
  passed to `recvfrom` (epoll.c:75-81). The reply is taken to go to the
  address `recvfrom` recorded. It also does not model the `printf("%s")` of
  the received buffer (epoll.c:85), which reads up to a zero byte the datagram
  need not contain; the model treats the handler as defined there, while the
  same kind of read by `strlen` in the stream handler is `Undefined`.
- `Handlers.HandleTcpConnection`: the echo length is modelled only when a zero
  byte lies within the received data. A failed `recv`, or data with no zero
  byte, makes `strlen` read bytes the model does not know. That case is the
  outcome `Undefined` (status `UndefinedBehaviour`), and the model does not say
  what happens after it.
- A `write` on a stream connection that fails without a signal (a short write,
  or an error other than a reset peer) is ignored by the code. The model
  records the `Write` effect whatever happens to it. The SIGPIPE case is
  modelled (status `Killed`).
- `Handlers.MaxDesc`: does not model the signed overflow of `desc + 1` at
  `INT_MAX`. Descriptors are unbounded integers throughout.
- After undefined behaviour, a failure exit or SIGPIPE, the model stops; it says nothing
  about what a C program would do next.

## Findings

| source | as written | input that shows it | evidently intended | confidence | as-written member | corrected member |
|---|---|---|---|---|---|---|
| epoll.c:178 | `tcp_usr_sock[j] != 0 && j < MAX_TCP_USERS` reads the entry before testing the bound | all four entries occupied, e.g. [5, 6, 7, 8]: the scan reads `tcp_usr_sock[4]` | test `j < MAX_TCP_USERS` first, so no read past the array | high, not executed | `AsWritten.ScanFrom` | `EpollServer.Server.FindFreeSlot` |
| epoll.c:187 | the "no space" guard tests the event index `i`, which the inner loop keeps below MAX_TCP_USERS, so `close(fd)` never runs | table [5, 6, 7, 8] and the listener reported at event index 1: the accepted descriptor is written to `tcp_usr_sock[4]` | test the entry index `j == MAX_TCP_USERS` and close the new connection | high, not executed | `AsWritten.FifthConnectionWrittenPastEnd` | `Dispatch.AcceptWhenFull` |

The rest of the model (`Dispatch`, `EpollServer`) uses the corrected scan and
guard. The other three behaviours listed above are well defined in C and are
modelled as written: positional matching, entries never freed, and the
`strlen` echo length.

=== FILE: as_written.dfy ===
/** The accept path of main exactly as written, where it differs from the model in
    module Dispatch: the free-entry search reads the entry before testing the index
    bound, and the "no space" guard tests the event index instead of the entry index.
    Both differences only matter when the table is full, and both then access
    tcp_usr_sock at index MAX_TCP_USERS, one past its end. */
module AsWritten {
  import opened Net
  import Dispatch

  /** Where the search stops, and whether it read the entry one past the end. */
  datatype Scan = Scan(j: nat, readPastEnd: bool)

  /** `while (tcp_usr_sock[j] != 0 && j < MAX_TCP_USERS) j++;` started at j. At
      j == |slots| the condition first reads slots[j], which is past the end;
      whatever that read yields, the loop leaves with j == |slots|. */
  function ScanFrom(slots: seq<int>, j: nat): (r: Scan)
    requires j <= |slots|
    ensures j <= r.j <= |slots| && (r.readPastEnd <==> r.j == |slots|)
    ensures r.j < |slots| ==> slots[r.j] == 0
    ensures forall k :: j <= k < r.j ==> slots[k] != 0
    decreases |slots| - j
  {
    if j == |slots| then Scan(j, true)
    else if slots[j] != 0 then ScanFrom(slots, j + 1)
    else Scan(j, false)
  }

  /** The search as written stops at the same index as the corrected one, and it
      reads past the end exactly when no entry from j on is free. */
  lemma {:induction false} ScanFromMatchesFreeSlot(slots: seq<int>, j: nat)
    requires j <= |slots|
    ensures ScanFrom(slots, j).j == j + FirstIndexOf(slots[j..], 0)
    ensures ScanFrom(slots, j).readPastEnd <==> forall k :: j <= k < |slots| ==> slots[k] != 0
    decreases |slots| - j
  {
    if j < |slots| {
      if slots[j] != 0 {
        ScanFromMatchesFreeSlot(slots, j + 1);
        assert slots[j..][1..] == slots[j + 1..];
      } else {
        assert slots[j..][0] == 0;
      }
    }
  }

  /** Which branch of `if (i == MAX_TCP_USERS) close(fd); else tcp_usr_sock[j] = fd;`
      runs for event index i and search result j. */
  datatype Target = CloseNew | StoreAt(index: nat)

  function GuardAsWritten(i: nat, j: nat): (t: Target)
    ensures i < MaxTcpUsers ==> t == StoreAt(j)
  {
    if i == MaxTcpUsers then CloseNew else StoreAt(j)
  }

  /** The guard as corrected: test the entry index. */
  function GuardOnSlot(j: nat): (t: Target)
    ensures t.StoreAt? ==> t.index == j
    ensures j <= MaxTcpUsers ==> (t.CloseNew? <==> j == MaxTcpUsers) && (t.StoreAt? ==> t.index < MaxTcpUsers)
  {
    if j == MaxTcpUsers then CloseNew else StoreAt(j)
  }

  /** The new-connection check of module Dispatch follows the corrected guard: on a
      successful accept it closes the new descriptor exactly when the guard on the
      least free entry says CloseNew, and otherwise stores it where the guard says. */
  lemma AcceptBranchFollowsGuardOnSlot(s: Dispatch.State, ev: Dispatch.Event, r: Dispatch.Reply)
    requires |s.slots| == MaxTcpUsers
    requires ev.fd == s.tcpSock && ev.readable && r.accepted >= 0
    ensures var t := Dispatch.AcceptBranch(s, ev, r);
            var g := GuardOnSlot(Dispatch.FreeSlot(s.slots));
            (g == CloseNew <==> t.effects == [Close(r.accepted)]) &&
            (g == CloseNew ==> t.state == s) &&
            (g.StoreAt? ==> t.effects == [] && t.state.slots == s.slots[g.index := r.accepted])
  {
  }

  /** With a full table and any event index the inner loop can reach, the search as
      written reads one past the end and the guard as written stores the new
      descriptor one past the end; the corrected guard closes it. */
  lemma FullTableAccessesPastEnd(slots: seq<int>, i: nat)
    requires |slots| == MaxTcpUsers && i < MaxTcpUsers
    requires forall k :: 0 <= k < |slots| ==> slots[k] != 0
    ensures ScanFrom(slots, 0) == Scan(|slots|, true)
    ensures GuardAsWritten(i, ScanFrom(slots, 0).j) == StoreAt(|slots|)
    ensures GuardOnSlot(Dispatch.FreeSlot(slots)) == CloseNew
  {
    ScanFromMatchesFreeSlot(slots, 0);
    assert slots[0..] == slots;
  }

  /** With a free entry the two guards agree, so the defect shows only when full. */
  lemma GuardsAgreeWithFreeSlot(slots: seq<int>, i: nat)
    requires |slots| == MaxTcpUsers && i < MaxTcpUsers
    requires exists k :: 0 <= k < |slots| && slots[k] == 0
    ensures ScanFrom(slots, 0) == Scan(Dispatch.FreeSlot(slots), false)
    ensures GuardAsWritten(i, ScanFrom(slots, 0).j) == GuardOnSlot(Dispatch.FreeSlot(slots))
    ensures Dispatch.FreeSlot(slots) < |slots|
  {
    ScanFromMatchesFreeSlot(slots, 0);
    assert slots[0..] == slots;
  }

  /** Concretely: connections 5, 6, 7 and 8 fill the table and epoll reports the
      listening socket at index 1; the code as written writes the accepted
      descriptor to tcp_usr_sock[4]. */
  lemma FifthConnectionWrittenPastEnd()
    ensures GuardAsWritten(1, ScanFrom([5, 6, 7, 8], 0).j) == StoreAt(4)
    ensures ScanFrom([5, 6, 7, 8], 0).readPastEnd
  {
    FullTableAccessesPastEnd([5, 6, 7, 8], 1);
  }
}

=== FILE: dispatch.dfy ===
/** The readiness loop of main, as functions over a snapshot of its state: the
    connection table, the set of descriptors registered with epoll, and the two
    listening descriptors. Every answer of the operating system is an input. */
module Dispatch {
  import opened Net
  import opened Handlers

  /** One entry of the epoll event array: a descriptor, and whether EPOLLIN is set. */
  datatype Event = Event(fd: int, readable: bool)

  /** Everything the operating system answers during one iteration of the inner
      `for` loop: whether epoll_wait failed, the contents of the event array after
      it (stale entries included), and the results of the calls the handlers make. */
  datatype Reply = Reply(
    waitOk: bool,
    events: seq<Event>,
    udp: UdpRecv,
    udpSendOk: bool,
    accepted: int,      // what accept returns; negative on failure
    registerOk: bool,   // whether epoll_ctl(EPOLL_CTL_ADD) for the new connection succeeded
    tcp: TcpRecv,
    writeBroken: bool)  // whether the peer has reset the connection, so the echo's write raises SIGPIPE

  /** The event array has MAX_TCP_USERS + 2 entries. */
  predicate WellFormedReply(r: Reply) {
    |r.events| == MaxEvents
  }

  /** One pass of the inner loop consumes one reply per index 0 .. MAX_TCP_USERS - 1. */
  predicate WellFormedPass(p: seq<Reply>) {
    |p| == MaxTcpUsers && forall k :: 0 <= k < |p| ==> WellFormedReply(p[k])
  }

  /** The state main keeps: its two listening descriptors, the table tcp_usr_sock
      (0 marks a free entry) and the descriptors added to the epoll instance. */
  datatype State = State(udpSock: int, tcpSock: int, slots: seq<int>, registered: set<int>)

  /** Why main returns EXIT_FAILURE from the loop. */
  datatype Cause = WaitFailed | UdpFailed | AcceptFailed | RegisterFailed

  /** Whether the loop goes on, has left main, has reached undefined behaviour, or
      the process was ended by SIGPIPE: no handler is installed and write is called
      without MSG_NOSIGNAL, so the signal's default action terminates it. */
  datatype Status = Running | Exited(cause: Cause) | UndefinedBehaviour | Killed

  /** The three checks of one event, in the order the source makes them. */
  datatype Route = ToUdp | ToAccept | ToEstablished

  /** Position of a check in the source's order. */
  function Rank(r: Route): nat {
    match r
    case ToUdp => 0
    case ToAccept => 1
    case ToEstablished => 2
  }

  /** The outcome of some dispatch work: the new state, what peers observed, which
      checks fired, and whether the loop continues. */
  datatype Step = Step(state: State, effects: seq<Effect>, routes: seq<Route>, status: Status)

  /** Work `a` followed by work `b`. */
  function Then(a: Step, b: Step): Step {
    Step(b.state, a.effects + b.effects, a.routes + b.routes, b.status)
  }

  /** Invariant of the running loop: the table has MAX_TCP_USERS entries, both
      listening descriptors are registered, and so is every descriptor in the table. */
  predicate Valid(s: State)
    ensures Valid(s) ==> forall fd :: fd in s.slots && fd != 0 ==> fd in s.registered
  {
    |s.slots| == MaxTcpUsers &&
    s.udpSock in s.registered && s.tcpSock in s.registered &&
    forall k :: 0 <= k < |s.slots| && s.slots[k] != 0 ==> s.slots[k] in s.registered
  }

  /** The table right after the zeroing loop of main. */
  function EmptyTable(): (t: seq<int>)
    ensures |t| == MaxTcpUsers && forall k :: 0 <= k < |t| ==> t[k] == 0
  {
    [0, 0, 0, 0]
  }

  /** The index the new connection goes to: the least free entry, or MAX_TCP_USERS
      when every entry is occupied. */
  function FreeSlot(slots: seq<int>): (j: nat)
    ensures j <= |slots| && (j < |slots| ==> slots[j] == 0)
    ensures forall k :: 0 <= k < j ==> slots[k] != 0
  {
    FirstIndexOf(slots, 0)
  }

  /** The datagram check: a readable event on the datagram socket runs
      HandleUDPConnection; a negative return ends main. */
  function UdpBranch(s: State, ev: Event, r: Reply): (t: Step)
    ensures t.state == s
  {
    if ev.fd == s.udpSock && ev.readable then
      var u := HandleUdpConnection(r.udp, r.udpSendOk);
      Step(s, u.effects, [ToUdp], if u.status < 0 then Exited(UdpFailed) else Running)
    else
      Step(s, [], [], Running)
  }

  /** The new-connection check: a readable event on the listening socket accepts a
      connection. A failed accept ends main. With a free entry the descriptor is
      stored at the least free index and registered (a failed registration ends
      main after the store); with no free entry it is closed. */
  function AcceptBranch(s: State, ev: Event, r: Reply): (t: Step)
    requires |s.slots| == MaxTcpUsers
    ensures t.state.udpSock == s.udpSock && t.state.tcpSock == s.tcpSock && s.registered <= t.state.registered
  {
    if ev.fd == s.tcpSock && ev.readable then
      var j := FreeSlot(s.slots);
      if r.accepted < 0 then
        Step(s, [], [ToAccept], Exited(AcceptFailed))
      else if j == MaxTcpUsers then
        Step(s, [Close(r.accepted)], [ToAccept], Running)
      else
        var stored := s.(slots := s.slots[j := r.accepted]);
        if r.registerOk then
          Step(stored.(registered := s.registered + {r.accepted}), [], [ToAccept], Running)
        else
          Step(stored, [], [ToAccept], Exited(RegisterFailed))
    else
      Step(s, [], [], Running)
  }

  /** What peers observe of HandleTCPConnection on descriptor `fd`. */
  function TcpEffects(fd: int, o: TcpOutcome): seq<Effect> {
    match o
    case Disconnected => [Close(fd)]
    case Echoed(reply) => [Write(fd, reply)]
    case Undefined => []
  }

  /** The established-connection check: it compares the event's descriptor with the
      table entry at the event's own index `i`, and on a match runs
      HandleTCPConnection on a copy of that entry, so the table never changes here.
      An echo written to a connection the peer has reset delivers nothing and raises
      SIGPIPE, which ends the whole process. */
  function EstablishedBranch(s: State, i: nat, ev: Event, r: Reply): (t: Step)
    requires i < |s.slots|
    ensures t.state == s
  {
    if ev.fd == s.slots[i] && ev.readable then
      var o := HandleTcpConnection(r.tcp);
      if o.Echoed? && r.writeBroken then
        Step(s, [], [ToEstablished], Killed)
      else
        Step(s, TcpEffects(s.slots[i], o), [ToEstablished], if o.Undefined? then UndefinedBehaviour else Running)
    else
      Step(s, [], [], Running)
  }

  /** One iteration of the inner loop at index `i`: epoll_wait, then the three
      independent checks on events[i], each on the state the previous one left. */
  function DispatchEvent(s: State, i: nat, r: Reply): (t: Step)
    requires |s.slots| == MaxTcpUsers && i < MaxTcpUsers && WellFormedReply(r)
    ensures |t.state.slots| == MaxTcpUsers
  {
    if !r.waitOk then
      Step(s, [], [], Exited(WaitFailed))
    else
      var ev := r.events[i];
      var a := UdpBranch(s, ev, r);
      if a.status != Running then a
      else
        var b := Then(a, AcceptBranch(a.state, ev, r));
        if b.status != Running then b
        else Then(b, EstablishedBranch(b.state, i, ev, r))
  }

  /** The first `n` iterations of the inner loop, stopping at the first one that
      does not leave the loop running. */
  function PassPrefix(s: State, p: seq<Reply>, n: nat): (t: Step)
    requires |s.slots| == MaxTcpUsers && WellFormedPass(p) && n <= MaxTcpUsers
    ensures |t.state.slots| == MaxTcpUsers
    decreases n
  {
    if n == 0 then Step(s, [], [], Running)
    else
      var a := PassPrefix(s, p, n - 1);
      if a.status != Running then a
      else Then(a, DispatchEvent(a.state, n - 1, p[n - 1]))
  }

  /** The first `n` passes of the outer `while (true)` loop, stopping at the first
      pass that does not leave the loop running. */
  function RunPrefix(s: State, passes: seq<seq<Reply>>, n: nat): (t: Step)
    requires |s.slots| == MaxTcpUsers && n <= |passes|
    requires forall k :: 0 <= k < |passes| ==> WellFormedPass(passes[k])
    ensures |t.state.slots| == MaxTcpUsers
    decreases n
  {
    if n == 0 then Step(s, [], [], Running)
    else
      var a := RunPrefix(s, passes, n - 1);
      if a.status != Running then a
      else Then(a, PassPrefix(a.state, passes[n - 1], |passes[n - 1]|))
  }

  /** A running prefix of a pass grows by one iteration. */
  lemma PassPrefixNext(s: State, p: seq<Reply>, n: nat)
    requires |s.slots| == MaxTcpUsers && WellFormedPass(p) && n < MaxTcpUsers
    requires PassPrefix(s, p, n).status == Running
    ensures var a := PassPrefix(s, p, n);
            PassPrefix(s, p, n + 1) == Then(a, DispatchEvent(a.state, n, p[n]))
  {
  }

  /** A running prefix of a run grows by one whole pass. */
  lemma RunPrefixNext(s: State, passes: seq<seq<Reply>>, n: nat)
    requires |s.slots| == MaxTcpUsers && n < |passes|
    requires forall k :: 0 <= k < |passes| ==> WellFormedPass(passes[k])
    requires RunPrefix(s, passes, n).status == Running
    ensures var a := RunPrefix(s, passes, n);
            RunPrefix(s, passes, n + 1) == Then(a, PassPrefix(a.state, passes[n], |passes[n]|))
  {
  }

  /** `t` keeps the listening descriptors and every occupied entry of `s`, and
      registers at least what `s` registers: entries are never freed. */
  predicate Extends(s: State, t: State) {
    t.udpSock == s.udpSock && t.tcpSock == s.tcpSock &&
    |t.slots| == |s.slots| && s.registered <= t.registered &&
    forall k :: 0 <= k < |s.slots| && s.slots[k] != 0 ==> t.slots[k] == s.slots[k]
  }

  /** Number of occupied entries of the table. */
  function Occupied(slots: seq<int>): (n: nat)
    ensures n <= |slots|
  {
    if slots == [] then 0 else (if slots[0] != 0 then 1 else 0) + Occupied(slots[1..])
  }

  // ---------------------------------------------------------------------------
  // Outcomes of the three checks
  // ---------------------------------------------------------------------------

  /** The datagram check fires only on a readable datagram event; when it does not
      fire it does nothing, and it can only end main with UdpFailed, sending nothing. */
  lemma UdpBranchOutcome(s: State, ev: Event, r: Reply)
    ensures var t := UdpBranch(s, ev, r);
            (t.routes == [] <==> !(ev.fd == s.udpSock && ev.readable)) &&
            (t.routes == [] ==> t.effects == [] && t.status == Running) &&
            (t.status != Running ==> t.status == Exited(UdpFailed) && t.effects == [])
  {
  }

  /** The new-connection check either leaves the table alone or stores the accepted
      descriptor at the least free entry; the only thing it sends is the close of a
      connection that found the table full, and then the state is unchanged. */
  lemma AcceptBranchOutcome(s: State, ev: Event, r: Reply)
    requires |s.slots| == MaxTcpUsers
    ensures var t := AcceptBranch(s, ev, r);
            (t.routes == [] <==> !(ev.fd == s.tcpSock && ev.readable)) &&
            (t.state.slots == s.slots ||
             (FreeSlot(s.slots) < MaxTcpUsers && t.state.slots == s.slots[FreeSlot(s.slots) := r.accepted])) &&
            (t.effects != [] ==> t.effects == [Close(r.accepted)] && t.state == s && FreeSlot(s.slots) == MaxTcpUsers) &&
            (t.status != Running ==> t.status in {Exited(AcceptFailed), Exited(RegisterFailed)}) &&
            (t.status == Exited(AcceptFailed) <==> ev.fd == s.tcpSock && ev.readable && r.accepted < 0) &&
            (t.status == Exited(RegisterFailed) <==>
               ev.fd == s.tcpSock && ev.readable && r.accepted >= 0 && FreeSlot(s.slots) < MaxTcpUsers && !r.registerOk)
  {
  }

  /** The established-connection check acts only on the descriptor at entry i: at
      most one write or close, to that descriptor, and nothing at all when strlen
      would read unknown bytes. It never returns from main, but it ends the process
      exactly when it echoes to a connection the peer has reset. */
  lemma EstablishedBranchOutcome(s: State, i: nat, ev: Event, r: Reply)
    requires i < |s.slots|
    ensures var t := EstablishedBranch(s, i, ev, r);
            |t.effects| <= 1 &&
            (t.effects != [] ==> !t.effects[0].SendTo? && t.effects[0].fd == s.slots[i]) &&
            (t.status == UndefinedBehaviour ==> t.effects == []) &&
            (t.status == Killed ==> t.effects == []) &&
            (t.status == Running || t.status == UndefinedBehaviour || t.status == Killed) &&
            (t.status == Killed <==>
               ev.fd == s.slots[i] && ev.readable && HandleTcpConnection(r.tcp).Echoed? && r.writeBroken)
  {
  }

  // ---------------------------------------------------------------------------
  // Properties of the connection table
  // ---------------------------------------------------------------------------

  /** The free-slot search yields the least free index, and MAX_TCP_USERS exactly
      when every entry is occupied. */
  lemma FreeSlotIsLeastFree(slots: seq<int>)
    requires |slots| == MaxTcpUsers
    ensures FreeSlot(slots) <= MaxTcpUsers
    ensures FreeSlot(slots) < MaxTcpUsers ==> slots[FreeSlot(slots)] == 0
    ensures forall k :: 0 <= k < FreeSlot(slots) ==> slots[k] != 0
    ensures FreeSlot(slots) == MaxTcpUsers <==> forall k :: 0 <= k < |slots| ==> slots[k] != 0
  {
  }

  /** Storing a non-zero descriptor into a free entry occupies exactly one more entry. */
  lemma {:induction false} OccupiedAfterStore(slots: seq<int>, j: nat, fd: int)
    requires j < |slots| && slots[j] == 0 && fd != 0
    ensures Occupied(slots[j := fd]) == Occupied(slots) + 1
  {
    if j > 0 {
      assert slots[j := fd][1..] == slots[1..][j - 1 := fd];
      OccupiedAfterStore(slots[1..], j - 1, fd);
    } else {
      assert slots[j := fd][1..] == slots[1..];
    }
  }

  /** A table in which every entry is occupied has MAX_TCP_USERS occupied entries. */
  lemma {:induction false} OccupiedWhenFull(slots: seq<int>)
    requires forall k :: 0 <= k < |slots| ==> slots[k] != 0
    ensures Occupied(slots) == |slots|
  {
    if slots != [] {
      OccupiedWhenFull(slots[1..]);
    }
  }

  /** Accept with a free entry: exactly the least free entry becomes the new
      descriptor, the descriptor is registered, nothing is closed, and every other
      entry is unchanged. */
  lemma AcceptIntoFreeSlot(s: State, i: nat, r: Reply)
    requires |s.slots| == MaxTcpUsers && i < MaxTcpUsers && WellFormedReply(r)
    requires r.waitOk && r.events[i] == Event(s.tcpSock, true) && s.tcpSock != s.udpSock
    requires r.accepted >= 0 && r.registerOk
    requires r.accepted != s.tcpSock && s.tcpSock !in s.slots
    requires FreeSlot(s.slots) < MaxTcpUsers
    ensures var j := FreeSlot(s.slots);
            var t := DispatchEvent(s, i, r);
            s.slots[j] == 0 && (forall k :: 0 <= k < j ==> s.slots[k] != 0) &&
            t.state.slots == s.slots[j := r.accepted] &&
            t.state.registered == s.registered + {r.accepted} &&
            t.effects == [] && t.status == Running
  {
    var j := FreeSlot(s.slots);
    assert s.slots[j := r.accepted][i] != s.tcpSock;
  }

  /** Accept with no free entry: the new descriptor is closed and neither stored nor
      registered, so the table is unchanged and still holds MAX_TCP_USERS entries. */
  lemma AcceptWhenFull(s: State, i: nat, r: Reply)
    requires |s.slots| == MaxTcpUsers && i < MaxTcpUsers && WellFormedReply(r)
    requires r.waitOk && r.events[i] == Event(s.tcpSock, true) && s.tcpSock != s.udpSock
    requires r.accepted >= 0
    requires forall k :: 0 <= k < |s.slots| ==> s.slots[k] != 0
    ensures var t := DispatchEvent(s, i, r);
            t.state == s && Close(r.accepted) in t.effects &&
            Occupied(t.state.slots) == MaxTcpUsers
  {
    FreeSlotIsLeastFree(s.slots);
    OccupiedWhenFull(s.slots);
  }

  /** epoll_wait failing ends main before any check runs, and it is the only way an
      event ends main with WaitFailed. */
  lemma WaitFailureEndsMain(s: State, i: nat, r: Reply)
    requires |s.slots| == MaxTcpUsers && i < MaxTcpUsers && WellFormedReply(r)
    ensures !r.waitOk <==> DispatchEvent(s, i, r).status == Exited(WaitFailed)
    ensures !r.waitOk ==> DispatchEvent(s, i, r) == Step(s, [], [], Exited(WaitFailed))
  {
  }

  /** A failed accept on the listening socket ends main at once: nothing is stored,
      registered, written or closed. */
  lemma AcceptFailureEndsMain(s: State, i: nat, r: Reply)
    requires |s.slots| == MaxTcpUsers && i < MaxTcpUsers && WellFormedReply(r)
    requires r.waitOk && r.events[i] == Event(s.tcpSock, true) && s.tcpSock != s.udpSock
    requires r.accepted < 0
    ensures DispatchEvent(s, i, r) == Step(s, [], [ToAccept], Exited(AcceptFailed))
  {
  }

  /** A failed registration ends main after the store: the accepted descriptor is
      already in the least free entry but is not registered, and nothing is sent. */
  lemma RegisterFailureEndsMain(s: State, i: nat, r: Reply)
    requires |s.slots| == MaxTcpUsers && i < MaxTcpUsers && WellFormedReply(r)
    requires r.waitOk && r.events[i] == Event(s.tcpSock, true) && s.tcpSock != s.udpSock
    requires r.accepted >= 0 && !r.registerOk
    requires FreeSlot(s.slots) < MaxTcpUsers
    ensures var t := DispatchEvent(s, i, r);
            t.status == Exited(RegisterFailed) &&
            t.state.slots == s.slots[FreeSlot(s.slots) := r.accepted] &&
            t.state.registered == s.registered &&
            t.effects == [] && t.routes == [ToAccept]
  {
  }

  /** What one event can do to the state: the listening descriptors stay, the table
      either stays or gets the accepted descriptor at its least free entry, and
      registrations only grow. */
  lemma DispatchChanges(s: State, i: nat, r: Reply)
    requires |s.slots| == MaxTcpUsers && i < MaxTcpUsers && WellFormedReply(r)
    ensures var t := DispatchEvent(s, i, r).state;
            t.udpSock == s.udpSock && t.tcpSock == s.tcpSock && s.registered <= t.registered &&
            (t.slots == s.slots ||
             (FreeSlot(s.slots) < MaxTcpUsers && t.slots == s.slots[FreeSlot(s.slots) := r.accepted]))
  {
    if r.waitOk {
      var ev := r.events[i];
      var a := UdpBranch(s, ev, r);
      assert a.state == s;
      if a.status == Running {
        var b := AcceptBranch(s, ev, r);
        if b.status == Running {
          assert EstablishedBranch(b.state, i, ev, r).state == b.state;
        }
      }
    }
  }

  /** One event changes at most one entry, only a free one, and never frees an
      entry; the occupied count grows by at most one. */
  lemma {:induction false} DispatchExtends(s: State, i: nat, r: Reply)
    requires |s.slots| == MaxTcpUsers && i < MaxTcpUsers && WellFormedReply(r)
    ensures var t := DispatchEvent(s, i, r);
            Extends(s, t.state) &&
            (forall k, m :: 0 <= k < m < |s.slots| && t.state.slots[k] != s.slots[k] ==>
                              t.state.slots[m] == s.slots[m]) &&
            Occupied(s.slots) <= Occupied(t.state.slots) <= Occupied(s.slots) + 1
  {
    DispatchChanges(s, i, r);
    var t := DispatchEvent(s, i, r).state;
    if t.slots != s.slots {
      var j := FreeSlot(s.slots);
      FreeSlotIsLeastFree(s.slots);
      if r.accepted != 0 {
        OccupiedAfterStore(s.slots, j, r.accepted);
      }
    }
  }

  /** The loop invariant survives one event that leaves the loop running. */
  lemma DispatchPreservesValid(s: State, i: nat, r: Reply)
    requires |s.slots| == MaxTcpUsers && i < MaxTcpUsers && WellFormedReply(r)
    ensures Valid(s) && DispatchEvent(s, i, r).status == Running ==> Valid(DispatchEvent(s, i, r).state)
  {
  }

  // ---------------------------------------------------------------------------
  // Properties of the routing of one event
  // ---------------------------------------------------------------------------

  /** The three checks fire in the source's order (datagram, new connection,
      established connection), each at most once. */
  lemma RoutesInSourceOrder(s: State, i: nat, r: Reply)
    requires |s.slots| == MaxTcpUsers && i < MaxTcpUsers && WellFormedReply(r)
    ensures var rs := DispatchEvent(s, i, r).routes;
            forall a, b :: 0 <= a < b < |rs| ==> Rank(rs[a]) < Rank(rs[b])
  {
    if r.waitOk {
      var ev := r.events[i];
      var a := UdpBranch(s, ev, r);
      var b := AcceptBranch(a.state, ev, r);
      var c := EstablishedBranch(b.state, i, ev, r);
      assert a.routes == [] || a.routes == [ToUdp];
      assert b.routes == [] || b.routes == [ToAccept];
      assert c.routes == [] || c.routes == [ToEstablished];
    }
  }

  /** The checks are independent `if`s, not `else if`s: which of them fire depends
      only on the event, on the descriptors, and on no earlier check having ended
      the loop. The established check uses the table as the accept check left it. */
  lemma RoutingConditions(s: State, i: nat, r: Reply)
    requires |s.slots| == MaxTcpUsers && i < MaxTcpUsers && WellFormedReply(r) && r.waitOk
    ensures var ev := r.events[i];
            var t := DispatchEvent(s, i, r);
            var a := UdpBranch(s, ev, r);
            var b := AcceptBranch(s, ev, r);
            (ToUdp in t.routes <==> ev.readable && ev.fd == s.udpSock) &&
            (ToAccept in t.routes <==> a.status == Running && ev.readable && ev.fd == s.tcpSock) &&
            (ToEstablished in t.routes <==>
               a.status == Running && b.status == Running && ev.readable && ev.fd == b.state.slots[i])
  {
  }

  /** An event for a descriptor that is neither listening socket nor the entry at
      the event's own index is dropped: nothing changes and nothing is sent, even
      when the descriptor sits at another index of the table. */
  lemma EstablishedIsPositional(s: State, i: nat, r: Reply)
    requires |s.slots| == MaxTcpUsers && i < MaxTcpUsers && WellFormedReply(r) && r.waitOk
    requires r.events[i].fd !in {s.udpSock, s.tcpSock, s.slots[i]}
    ensures DispatchEvent(s, i, r) == Step(s, [], [], Running)
  {
  }

  /** An event at index i whose descriptor is the entry at index i, and neither
      listening socket, runs the stream handler on that descriptor and nothing else. */
  lemma EstablishedAtOwnIndex(s: State, i: nat, r: Reply)
    requires |s.slots| == MaxTcpUsers && i < MaxTcpUsers && WellFormedReply(r) && r.waitOk
    requires r.events[i] == Event(s.slots[i], true) && s.slots[i] !in {s.udpSock, s.tcpSock}
    ensures var o := HandleTcpConnection(r.tcp);
            DispatchEvent(s, i, r) ==
              if o.Echoed? && r.writeBroken then Step(s, [], [ToEstablished], Killed)
              else Step(s, TcpEffects(s.slots[i], o), [ToEstablished], if o.Undefined? then UndefinedBehaviour else Running)
  {
  }

  /** Concretely: connection 7 in entry 2 is readable, but epoll reports it first,
      at index 0, whose entry is connection 5. The data is not read and not echoed. */
  lemma ReadyConnectionNotServed()
    ensures var s := State(3, 4, [5, 6, 7, 8], {3, 4, 5, 6, 7, 8});
            var ev := Event(7, true);
            var r := Reply(true, [ev, ev, ev, ev, ev, ev], RecvFromFailed, false, -1, false,
                           Received([104, 105, 0]), false);
            DispatchEvent(s, 0, r) == Step(s, [], [], Running) &&
            DispatchEvent(s, 2, r).effects == [Write(7, [104, 105])]
  {
    var s := State(3, 4, [5, 6, 7, 8], {3, 4, 5, 6, 7, 8});
    var ev := Event(7, true);
    var r := Reply(true, [ev, ev, ev, ev, ev, ev], RecvFromFailed, false, -1, false,
                   Received([104, 105, 0]), false);
    TcpEchoOfTerminatedMessage([104, 105], []);
    var msg: seq<byte> := [104, 105];
    assert msg + [0] + [] == [104, 105, 0];
    EstablishedAtOwnIndex(s, 2, r);
  }

  /** Peer disconnect: the connection is closed and nothing is written, but its entry
      keeps the closed descriptor and stays registered, since the handler clears
      only its own copy of the descriptor. */
  lemma DisconnectKeepsSlot(s: State, i: nat, r: Reply)
    requires |s.slots| == MaxTcpUsers && i < MaxTcpUsers && WellFormedReply(r) && r.waitOk
    requires r.events[i] == Event(s.slots[i], true) && s.slots[i] !in {s.udpSock, s.tcpSock}
    requires r.tcp == Received([])
    ensures DispatchEvent(s, i, r) == Step(s, [Close(s.slots[i])], [ToEstablished], Running)
  {
  }

  /** One client that resets its connection stops the server for every client: the
      echo to it raises SIGPIPE, nothing is delivered and the process ends, and so
      does every longer prefix of the pass. */
  lemma ResetPeerKillsServer(s: State, p: seq<Reply>, i: nat, msg: seq<byte>, rest: seq<byte>)
    requires |s.slots| == MaxTcpUsers && WellFormedPass(p) && i < MaxTcpUsers
    requires PassPrefix(s, p, i).status == Running
    requires var u := PassPrefix(s, p, i).state;
             p[i].waitOk && p[i].events[i] == Event(u.slots[i], true) && u.slots[i] !in {u.udpSock, u.tcpSock}
    requires 0 !in msg && |msg| + 1 + |rest| <= BufLen
    requires p[i].tcp == Received(msg + [0] + rest) && p[i].writeBroken
    ensures var u := PassPrefix(s, p, i).state;
            DispatchEvent(u, i, p[i]) == Step(u, [], [ToEstablished], Killed)
    ensures PassPrefix(s, p, MaxTcpUsers).status == Killed
  {
    var u := PassPrefix(s, p, i).state;
    TcpEchoOfTerminatedMessage(msg, rest);
    EstablishedAtOwnIndex(u, i, p[i]);
    PassPrefixNext(s, p, i);
    PassStops(s, p, i + 1, MaxTcpUsers);
  }

  /** A datagram event echoes exactly the received bytes to the sender; a failed
      receive or send ends main. */
  lemma UdpEventEchoes(s: State, i: nat, r: Reply)
    requires |s.slots| == MaxTcpUsers && i < MaxTcpUsers && WellFormedReply(r) && r.waitOk
    requires r.events[i] == Event(s.udpSock, true)
    requires s.udpSock != s.tcpSock && s.udpSock != s.slots[i]
    ensures var t := DispatchEvent(s, i, r);
            t.state == s &&
            (r.udp.Datagram? && r.udpSendOk ==>
               t.status == Running && t.effects == [SendTo(r.udp.sender, r.udp.payload)]) &&
            (!(r.udp.Datagram? && r.udpSendOk) ==> t.status == Exited(UdpFailed) && t.effects == [])
  {
  }

  // ---------------------------------------------------------------------------
  // Properties of whole passes and runs
  // ---------------------------------------------------------------------------

  /** Extends is transitive. */
  lemma ExtendsTransitive(s: State, t: State, u: State)
    requires Extends(s, t) && Extends(t, u)
    ensures Extends(s, u)
  {
  }

  /** Once an iteration stops the loop, later prefixes of the pass are the same. */
  lemma {:induction false} PassStops(s: State, p: seq<Reply>, n: nat, m: nat)
    requires |s.slots| == MaxTcpUsers && WellFormedPass(p) && n <= m <= MaxTcpUsers
    requires PassPrefix(s, p, n).status != Running
    ensures PassPrefix(s, p, m) == PassPrefix(s, p, n)
    decreases m
  {
    if m > n {
      PassStops(s, p, n, m - 1);
    }
  }

  /** Once a pass stops the loop, later prefixes of the run are the same. */
  lemma {:induction false} RunStops(s: State, passes: seq<seq<Reply>>, n: nat, m: nat)
    requires |s.slots| == MaxTcpUsers && n <= m <= |passes|
    requires forall k :: 0 <= k < |passes| ==> WellFormedPass(passes[k])
    requires RunPrefix(s, passes, n).status != Running
    ensures RunPrefix(s, passes, m) == RunPrefix(s, passes, n)
    decreases m
  {
    if m > n {
      RunStops(s, passes, n, m - 1);
    }
  }

  /** A prefix of a run that has used every pass, or has stopped, is the whole run;
      it never frees an entry and keeps the loop invariant while it runs. */
  lemma RunComplete(s: State, passes: seq<seq<Reply>>, n: nat, t: Step)
    requires |s.slots| == MaxTcpUsers && n <= |passes|
    requires forall k :: 0 <= k < |passes| ==> WellFormedPass(passes[k])
    requires t == RunPrefix(s, passes, n) && (n == |passes| || t.status != Running)
    ensures t == RunPrefix(s, passes, |passes|)
    ensures Extends(s, t.state) && (Valid(s) && t.status == Running ==> Valid(t.state))
  {
    if t.status != Running {
      RunStops(s, passes, n, |passes|);
    }
    RunExtends(s, passes, |passes|);
    if Valid(s) {
      RunKeepsValid(s, passes, |passes|);
    }
  }

  /** One event from t keeps what t keeps of s. */
  lemma ExtendsAfterEvent(s: State, t: State, i: nat, r: Reply)
    requires |t.slots| == MaxTcpUsers && i < MaxTcpUsers && WellFormedReply(r) && Extends(s, t)
    ensures Extends(s, DispatchEvent(t, i, r).state)
  {
    DispatchExtends(t, i, r);
    ExtendsTransitive(s, t, DispatchEvent(t, i, r).state);
  }

  /** A pass never frees an entry and never unregisters a descriptor. */
  lemma {:induction false} PassExtends(s: State, p: seq<Reply>, n: nat)
    requires |s.slots| == MaxTcpUsers && WellFormedPass(p) && n <= MaxTcpUsers
    ensures Extends(s, PassPrefix(s, p, n).state)
    decreases n
  {
    if n > 0 {
      PassExtends(s, p, n - 1);
      var a := PassPrefix(s, p, n - 1);
      if a.status == Running {
        ExtendsAfterEvent(s, a.state, n - 1, p[n - 1]);
      }
    }
  }

  /** A pass keeps the loop invariant while it runs. */
  lemma {:induction false} PassKeepsValid(s: State, p: seq<Reply>, n: nat)
    requires |s.slots| == MaxTcpUsers && WellFormedPass(p) && n <= MaxTcpUsers
    requires Valid(s)
    ensures PassPrefix(s, p, n).status == Running ==> Valid(PassPrefix(s, p, n).state)
    decreases n
  {
    if n > 0 {
      var a := PassPrefix(s, p, n - 1);
      if a.status == Running {
        PassKeepsValid(s, p, n - 1);
        DispatchPreservesValid(a.state, n - 1, p[n - 1]);
      }
    }
  }

  /** A whole pass from t keeps what t keeps of s. */
  lemma ExtendsAfterPass(s: State, t: State, p: seq<Reply>)
    requires |t.slots| == MaxTcpUsers && WellFormedPass(p) && Extends(s, t)
    ensures Extends(s, PassPrefix(t, p, |p|).state)
  {
    PassExtends(t, p, |p|);
    ExtendsTransitive(s, t, PassPrefix(t, p, |p|).state);
  }

  /** Any bounded run never frees an entry and never unregisters a descriptor. */
  lemma {:induction false} RunExtends(s: State, passes: seq<seq<Reply>>, n: nat)
    requires |s.slots| == MaxTcpUsers && n <= |passes|
    requires forall k :: 0 <= k < |passes| ==> WellFormedPass(passes[k])
    ensures Extends(s, RunPrefix(s, passes, n).state)
    decreases n
  {
    if n > 0 {
      RunExtends(s, passes, n - 1);
      var a := RunPrefix(s, passes, n - 1);
      if a.status == Running {
        ExtendsAfterPass(s, a.state, passes[n - 1]);
      }
    }
  }

  /** Any bounded run keeps the loop invariant while it runs. */
  lemma {:induction false} RunKeepsValid(s: State, passes: seq<seq<Reply>>, n: nat)
    requires |s.slots| == MaxTcpUsers && n <= |passes|
    requires forall k :: 0 <= k < |passes| ==> WellFormedPass(passes[k])
    requires Valid(s)
    ensures RunPrefix(s, passes, n).status == Running ==> Valid(RunPrefix(s, passes, n).state)
    decreases n
  {
    if n > 0 {
      var a := RunPrefix(s, passes, n - 1);
      if a.status == Running {
        RunKeepsValid(s, passes, n - 1);
        PassKeepsValid(a.state, passes[n - 1], |passes[n - 1]|);
      }
    }
  }

  /** Since entries are never freed, once the table is full it stays full for the
      rest of any run and the search keeps reporting it full, so under the corrected
      guard `AcceptWhenFull` closes every later connection. */
  lemma FullTableStaysFull(s: State, passes: seq<seq<Reply>>, n: nat)
    requires |s.slots| == MaxTcpUsers && n <= |passes|
    requires forall k :: 0 <= k < |passes| ==> WellFormedPass(passes[k])
    requires forall k :: 0 <= k < |s.slots| ==> s.slots[k] != 0
    ensures var t := RunPrefix(s, passes, n).state;
            t.slots == s.slots && FreeSlot(t.slots) == MaxTcpUsers
  {
    RunExtends(s, passes, n);
    FreeSlotIsLeastFree(s.slots);
  }

  /** A wake in which every entry of the event array reports the listening socket
      `tcp` as readable and accept returns `fd`. */
  function ConnectWake(tcp: int, fd: int): (r: Reply)
    ensures WellFormedReply(r)
  {
    var ev := Event(tcp, true);
    Reply(true, [ev, ev, ev, ev, ev, ev], RecvFromFailed, false, fd, true, RecvFailed, false)
  }

  /** A client connecting at index n of a pass, while the table in state t has its
      least free entry at n, takes entry n and is registered: the pass reaches u. */
  lemma ConnectDuringPass(s: State, p: seq<Reply>, n: nat, t: State, fd: int, u: State)
    requires |s.slots| == MaxTcpUsers && WellFormedPass(p) && n < MaxTcpUsers
    requires var a := PassPrefix(s, p, n); a.state == t && a.effects == [] && a.status == Running
    requires p[n] == ConnectWake(t.tcpSock, fd) && fd >= 0 && fd != t.tcpSock
    requires t.tcpSock != t.udpSock && t.tcpSock !in t.slots && FreeSlot(t.slots) == n
    requires u == t.(slots := t.slots[n := fd], registered := t.registered + {fd})
    ensures var v := PassPrefix(s, p, n + 1); v.state == u && v.effects == [] && v.status == Running
  {
    PassPrefixNext(s, p, n);
    AcceptIntoFreeSlot(t, n, p[n]);
  }

  /** The table after the first n of the connections fds have taken their entries. */
  function Filled(fds: seq<int>, n: nat): (t: seq<int>)
    requires n <= |fds| == MaxTcpUsers
    ensures |t| == MaxTcpUsers && forall k :: 0 <= k < MaxTcpUsers ==> t[k] == if k < n then fds[k] else 0
  {
    if n == 0 then EmptyTable() else Filled(fds, n - 1)[n - 1 := fds[n - 1]]
  }

  /** The first n of the descriptors fds, as a set. */
  function Joined(fds: seq<int>, n: nat): set<int>
    requires n <= |fds|
  {
    if n == 0 then {} else Joined(fds, n - 1) + {fds[n - 1]}
  }

  /** Before the n-th connection the least free entry is n - 1 and the listening
      descriptor is not in the table; the connection completes Filled and Joined. */
  lemma FilledStep(fds: seq<int>, n: nat, tcp: int, registered: set<int>)
    requires 0 < n <= |fds| == MaxTcpUsers && tcp != 0
    requires forall k :: 0 <= k < |fds| ==> fds[k] > 0 && fds[k] != tcp
    ensures FreeSlot(Filled(fds, n - 1)) == n - 1 && tcp !in Filled(fds, n - 1)
    ensures Filled(fds, n - 1)[n - 1 := fds[n - 1]] == Filled(fds, n)
    ensures (registered + Joined(fds, n - 1)) + {fds[n - 1]} == registered + Joined(fds, n)
  {
    var f := Filled(fds, n - 1);
    assert f[n - 1] == 0 && forall k :: 0 <= k < n - 1 ==> f[k] != 0;
  }

  /** While clients connect at indices 0, 1, ... of a pass that starts from an empty
      table, the first n of them take entries 0 .. n - 1 in order. */
  lemma {:induction false} ConnectionsFillInOrder(s: State, p: seq<Reply>, fds: seq<int>, n: nat)
    requires s.slots == EmptyTable() && s.udpSock != s.tcpSock && s.tcpSock != 0
    requires |fds| == MaxTcpUsers && forall k :: 0 <= k < |fds| ==> fds[k] > 0 && fds[k] != s.tcpSock
    requires WellFormedPass(p) && forall k :: 0 <= k < |p| ==> p[k] == ConnectWake(s.tcpSock, fds[k])
    requires n <= MaxTcpUsers
    ensures var t := PassPrefix(s, p, n);
            t.state == s.(slots := Filled(fds, n), registered := s.registered + Joined(fds, n)) &&
            t.effects == [] && t.status == Running
    decreases n
  {
    if n > 0 {
      ConnectionsFillInOrder(s, p, fds, n - 1);
      FilledStep(fds, n, s.tcpSock, s.registered);
      ConnectDuringPass(s, p, n - 1, s.(slots := Filled(fds, n - 1), registered := s.registered + Joined(fds, n - 1)),
                        fds[n - 1], s.(slots := Filled(fds, n), registered := s.registered + Joined(fds, n)));
    }
  }

  /** All four connections fill the table with exactly fds. */
  lemma FilledAll(fds: seq<int>)
    requires |fds| == MaxTcpUsers
    ensures Filled(fds, MaxTcpUsers) == fds
    ensures Joined(fds, MaxTcpUsers) == {fds[0], fds[1], fds[2], fds[3]}
  {
    assert Joined(fds, 1) == {fds[0]};
    assert Joined(fds, 2) == {fds[0], fds[1]};
    assert Joined(fds, 3) == {fds[0], fds[1], fds[2]};
  }

  /** Four clients connect during one pass (epoll reports the listening socket at
      each index in turn) and take entries 0 to 3 in order, from an empty table. */
  lemma FourConnectionsFillTable(s: State, p: seq<Reply>, fds: seq<int>)
    requires s.slots == EmptyTable() && s.udpSock != s.tcpSock && s.tcpSock != 0
    requires |fds| == MaxTcpUsers && forall k :: 0 <= k < |fds| ==> fds[k] > 0 && fds[k] != s.tcpSock
    requires WellFormedPass(p) && forall k :: 0 <= k < |p| ==> p[k] == ConnectWake(s.tcpSock, fds[k])
    ensures var t := PassPrefix(s, p, MaxTcpUsers);
            t.state == s.(slots := fds, registered := s.registered + {fds[0], fds[1], fds[2], fds[3]}) &&
            t.effects == [] && t.status == Running
  {
    ConnectionsFillInOrder(s, p, fds, MaxTcpUsers);
    FilledAll(fds);
  }

  /** After those four connections, a fifth client is closed right after accept,
      and the table and the registered descriptors stay as they were. */
  lemma FifthConnectionClosed(s: State, p: seq<Reply>, fds: seq<int>, fd: int)
    requires s.slots == EmptyTable() && s.udpSock != s.tcpSock && s.tcpSock != 0
    requires |fds| == MaxTcpUsers && forall k :: 0 <= k < |fds| ==> fds[k] > 0 && fds[k] != s.tcpSock
    requires WellFormedPass(p) && forall k :: 0 <= k < |p| ==> p[k] == ConnectWake(s.tcpSock, fds[k])
    requires fd >= 0
    ensures var t := PassPrefix(s, p, MaxTcpUsers);
            var u := DispatchEvent(t.state, 0, ConnectWake(s.tcpSock, fd));
            u.effects == [Close(fd)] && u.state == t.state
  {
    var t := PassPrefix(s, p, MaxTcpUsers);
    assert t.state.slots == fds && t.state.tcpSock == s.tcpSock && t.state.udpSock == s.udpSock by {
      FourConnectionsFillTable(s, p, fds);
    }
    AcceptWhenFull(t.state, 0, ConnectWake(s.tcpSock, fd));
  }
}

=== FILE: handlers.dfy ===
/** The decisions of the two echo handlers and of MaxDesc, as functions of what the
    operating system hands them. */
module Handlers {
  import opened Net

  /** Result of recvfrom on the datagram socket: failure (-1), or the bytes placed
      in the buffer together with the sender's address. */
  datatype UdpRecv = RecvFromFailed | Datagram(payload: Chunk, sender: Addr)

  /** What HandleUDPConnection returns (0 or -1) and what reached the network. */
  datatype UdpResult = UdpResult(status: int, effects: seq<Effect>)

  /** HandleUDPConnection: receive one datagram and send exactly the received bytes
      back to the address they came from. A failed receive or a failed send makes
      the handler return -1; a failed send delivers nothing. */
  function HandleUdpConnection(recv: UdpRecv, sendOk: bool): (r: UdpResult)
    ensures r.status == 0 || r.status == -1
    ensures r.status == 0 <==> recv.Datagram? && sendOk
    ensures r.status == 0 ==>
              |r.effects| == 1 && r.effects[0].SendTo? &&
              r.effects[0].peer == recv.sender && r.effects[0].data == recv.payload
    ensures r.status == -1 ==> r.effects == []
  {
    match recv
    case RecvFromFailed => UdpResult(-1, [])
    case Datagram(payload, sender) =>
      if sendOk then UdpResult(0, [SendTo(sender, payload)]) else UdpResult(-1, [])
  }

  /** Result of recv on a stream connection: failure (-1), or the bytes placed in
      the buffer (none at all when the peer has closed the connection). */
  datatype TcpRecv = RecvFailed | Received(data: Chunk)

  /** What HandleTCPConnection does: close the connection, write a reply, or reach
      strlen over a buffer holding no terminating zero byte (undefined in C). */
  datatype TcpOutcome = Disconnected | Echoed(reply: seq<byte>) | Undefined

  /** HandleTCPConnection: a zero-length receive closes the connection and sends
      nothing; otherwise the reply length is strlen of the buffer, so the reply is
      the received bytes up to, not including, the first zero byte. When no zero
      byte lies within the received bytes, or the receive failed and the buffer was
      never written, strlen reads bytes the model does not know. */
  function HandleTcpConnection(recv: TcpRecv): (r: TcpOutcome)
    ensures r.Disconnected? <==> recv == Received([])
    ensures r.Undefined? <==> recv.RecvFailed? || (|recv.data| > 0 && 0 !in recv.data)
    ensures r.Echoed? ==>
              recv.Received? && |r.reply| < |recv.data| &&
              r.reply == recv.data[..|r.reply|] &&
              recv.data[|r.reply|] == 0 && 0 !in r.reply
  {
    match recv
    case RecvFailed => Undefined
    case Received(data) =>
      if |data| == 0 then Disconnected
      else
        var n := FirstIndexOf(data, 0);
        if n < |data| then Echoed(data[..n]) else Undefined
  }

  /** A payload that is a zero-free message followed by one zero byte is echoed
      without the zero byte. */
  lemma TcpEchoOfTerminatedMessage(msg: seq<byte>, rest: seq<byte>)
    requires 0 !in msg && |msg| + 1 + |rest| <= BufLen
    ensures HandleTcpConnection(Received(msg + [0] + rest)) == Echoed(msg)
  {
    var data: Chunk := msg + [0] + rest;
    var n := FirstIndexOf(data, 0);
    assert data[|msg|] == 0;
    assert forall k :: 0 <= k < |msg| ==> data[k] == msg[k];
    assert n == |msg|;
    assert data[..n] == msg;
  }

  /** Bytes after the first zero byte are never echoed: the payload [1, 0, 2]
      produces the one-byte reply [1]. */
  lemma TcpEchoDropsBytesAfterZero()
    ensures HandleTcpConnection(Received([1, 0, 2])) == Echoed([1])
  {
    TcpEchoOfTerminatedMessage([1], [2]);
  }

  /** MaxDesc: the result is never below nfds nor below desc, and it is either nfds
      or desc + 1. It exceeds desc exactly when desc differs from nfds, so
      MaxDesc(n, n) == n. */
  function MaxDesc(nfds: int, desc: int): (r: int)
    ensures r >= nfds && r >= desc
    ensures r == nfds || r == desc + 1
    ensures r > desc <==> desc != nfds
  {
    if desc > nfds then desc + 1 else nfds
  }

  /** Applying MaxDesc twice with the same descriptor gives the same bound. */
  lemma MaxDescIdempotent(nfds: int, desc: int)
    ensures MaxDesc(MaxDesc(nfds, desc), desc) == MaxDesc(nfds, desc)
  {
  }
}

=== FILE: net.dfy ===
/** Constants, wire-level values and the effects the echo server has on the network. */
module Net {

  /** One octet of a payload. */
  newtype byte = x: int | 0 <= x < 256

  /** Size of the receive buffer of both handlers (BUFLEN). */
  const BufLen: nat := 512

  /** Number of entries in the stream connection table (MAX_TCP_USERS). */
  const MaxTcpUsers: nat := 4

  /** Size of the event array handed to epoll_wait (MAX_TCP_USERS + 2). */
  const MaxEvents: nat := MaxTcpUsers + 2

  /** What one receive call can place in the buffer: at most BufLen bytes. */
  type Chunk = s: seq<byte> | |s| <= BufLen

  /** A peer's socket address, as recorded by recvfrom. */
  type Addr = int

  /** An action of the server that a peer can observe. */
  datatype Effect =
    | SendTo(peer: Addr, data: seq<byte>)  // sendto on the datagram socket
    | Write(fd: int, data: seq<byte>)      // write on a stream connection
    | Close(fd: int)                       // close of a stream connection

  /** The least index at which `x` occurs in `s`, or |s| when it does not occur.
      The connection table's free-slot search and strlen are both this search. */
  function FirstIndexOf<T(==)>(s: seq<T>, x: T): (n: nat)
    ensures n <= |s|
    ensures n < |s| ==> s[n] == x
    ensures forall k :: 0 <= k < n ==> s[k] != x
    ensures n == |s| <==> x !in s
  {
    if s == [] then 0
    else if s[0] == x then 0
    else
      var n := 1 + FirstIndexOf(s[1..], x);
      assert forall k :: 1 <= k < n ==> s[k] == s[1..][k - 1];
      n
  }
}

=== FILE: server.dfy ===
/** main's readiness loop as the source runs it: the connection table is an array
    that is zeroed, scanned and written in place, and the registered descriptors
    grow through epoll_ctl. Each method of the loop (the free-entry search, the
    three checks, one event, one pass, the whole run) is proved equal to the
    matching function of module Dispatch; the constructor is proved to reach the
    zeroed table, and RegisterListeners states the registered set it leaves. */
module EpollServer {
  import opened Net
  import opened Handlers
  import opened Dispatch

  class Server {
    /** The datagram and the listening stream descriptors. */
    const udpSock: int
    const tcpSock: int
    /** tcp_usr_sock: one entry per stream connection, 0 when free. */
    const slots: array<int>
    /** The descriptors added to the epoll instance. */
    var registered: set<int>

    /** The loop's state as a value. */
    function Snapshot(): State
      reads this, slots
    {
      State(udpSock, tcpSock, slots[..], registered)
    }

    /** The table has MAX_TCP_USERS entries. */
    predicate Shaped()
      reads this
    {
      slots.Length == MaxTcpUsers
    }

    /** The start of main: the table is zeroed entry by entry before anything is
        registered. */
    constructor (udpSock: int, tcpSock: int)
      ensures Shaped() && fresh(slots)
      ensures Snapshot() == State(udpSock, tcpSock, EmptyTable(), {})
    {
      var table := new int[MaxTcpUsers];
      for k := 0 to MaxTcpUsers
        invariant forall m :: 0 <= m < k ==> table[m] == 0
      {
        table[k] := 0;
      }
      this.udpSock := udpSock;
      this.tcpSock := tcpSock;
      slots := table;
      registered := {};
    }

    /** Registers the datagram socket and then the listening socket with epoll; the
        first failure ends main, so the second is not attempted. On success the
        loop invariant holds. */
    method RegisterListeners(udpOk: bool, tcpOk: bool) returns (status: Status)
      requires Shaped()
      modifies this
      ensures status == (if !udpOk || !tcpOk then Exited(RegisterFailed) else Running)
      ensures registered == old(registered) + (if udpOk then {udpSock} else {})
                                            + (if udpOk && tcpOk then {tcpSock} else {})
      ensures status == Running && (forall k :: 0 <= k < slots.Length ==> slots[k] == 0) ==>
                Valid(Snapshot())
    {
      if !udpOk {
        return Exited(RegisterFailed);
      }
      registered := registered + {udpSock};
      if !tcpOk {
        return Exited(RegisterFailed);
      }
      registered := registered + {tcpSock};
      status := Running;
    }

    /** The free-entry search, testing the bound before reading the entry: the least
        free index, or MAX_TCP_USERS when the table is full. */
    method FindFreeSlot() returns (j: nat)
      requires Shaped()
      ensures j == FreeSlot(slots[..])
      ensures j <= MaxTcpUsers && (j < MaxTcpUsers ==> slots[j] == 0)
      ensures forall k :: 0 <= k < j ==> slots[k] != 0
    {
      j := 0;
      while j < MaxTcpUsers && slots[j] != 0
        invariant j <= MaxTcpUsers
        invariant forall k :: 0 <= k < j ==> slots[k] != 0
      {
        j := j + 1;
      }
      assert forall k :: 0 <= k < j ==> slots[..][k] != 0;
    }

    /** The datagram check on one event: a readable event on the datagram socket runs
        HandleUDPConnection, and a negative return ends main. */
    method CheckDatagram(ev: Event, r: Reply) returns (effects: seq<Effect>, routes: seq<Route>, status: Status)
      ensures Step(Snapshot(), effects, routes, status) == UdpBranch(Snapshot(), ev, r)
    {
      effects, routes, status := [], [], Running;
      if ev.fd == udpSock && ev.readable {
        var u := HandleUdpConnection(r.udp, r.udpSendOk);
        effects, routes := u.effects, [ToUdp];
        if u.status < 0 {
          status := Exited(UdpFailed);
        }
      }
    }

    /** The new-connection check on one event: accept, search the table, then store
        and register the descriptor, or close it when the table is full. */
    method CheckNewConnection(ev: Event, r: Reply) returns (effects: seq<Effect>, routes: seq<Route>, status: Status)
      requires Shaped()
      modifies this, slots
      ensures Shaped()
      ensures Step(Snapshot(), effects, routes, status) == AcceptBranch(old(Snapshot()), ev, r)
    {
      effects, routes, status := [], [], Running;
      if ev.fd == tcpSock && ev.readable {
        routes := [ToAccept];
        var j := FindFreeSlot();
        if r.accepted < 0 {
          return effects, routes, Exited(AcceptFailed);
        }
        if j == MaxTcpUsers {
          effects := [Close(r.accepted)];
        } else {
          slots[j] := r.accepted;
          if !r.registerOk {
            return effects, routes, Exited(RegisterFailed);
          }
          registered := registered + {r.accepted};
        }
      }
    }

    /** The established-connection check on event i: the event's descriptor is
        compared with entry i only, and HandleTCPConnection gets a copy of it. */
    method CheckEstablished(i: nat, ev: Event, r: Reply) returns (effects: seq<Effect>, routes: seq<Route>, status: Status)
      requires Shaped() && i < MaxTcpUsers
      ensures Step(Snapshot(), effects, routes, status) == EstablishedBranch(Snapshot(), i, ev, r)
    {
      effects, routes, status := [], [], Running;
      if ev.fd == slots[i] && ev.readable {
        var fd := slots[i];
        var o := HandleTcpConnection(r.tcp);
        routes := [ToEstablished];
        if o.Echoed? && r.writeBroken {
          status := Killed;
        } else {
          effects := TcpEffects(fd, o);
          if o.Undefined? {
            status := UndefinedBehaviour;
          }
        }
      }
    }

    /** One iteration of the inner loop at index i: epoll_wait, then the datagram
        check, the new-connection check and the established-connection check on
        events[i], as three independent `if`s. */
    method DispatchEvent(i: nat, r: Reply) returns (effects: seq<Effect>, routes: seq<Route>, status: Status)
      requires Shaped() && i < MaxTcpUsers && WellFormedReply(r)
      modifies this, slots
      ensures Shaped()
      ensures Step(Snapshot(), effects, routes, status) == Dispatch.DispatchEvent(old(Snapshot()), i, r)
      ensures Valid(old(Snapshot())) && status == Running ==> Valid(Snapshot())
    {
      DispatchPreservesValid(Snapshot(), i, r);
      if !r.waitOk {
        return [], [], Exited(WaitFailed);
      }
      var ev := r.events[i];
      effects, routes, status := CheckDatagram(ev, r);
      if status != Running {
        return;
      }
      var e, rs, st := CheckNewConnection(ev, r);
      effects, routes, status := effects + e, routes + rs, st;
      if status != Running {
        return;
      }
      e, rs, st := CheckEstablished(i, ev, r);
      effects, routes, status := effects + e, routes + rs, st;
    }

    /** One pass of the inner `for` loop over i = 0 .. MAX_TCP_USERS - 1, leaving
        it at the first iteration that ends main, reaches undefined behaviour or
        ends the process. */
    method RunPass(p: seq<Reply>) returns (effects: seq<Effect>, routes: seq<Route>, status: Status)
      requires Shaped() && WellFormedPass(p)
      modifies this, slots
      ensures Shaped()
      ensures Step(Snapshot(), effects, routes, status) == PassPrefix(old(Snapshot()), p, |p|)
    {
      ghost var s0 := Snapshot();
      effects, routes, status := [], [], Running;
      var i := 0;
      while i < MaxTcpUsers
        invariant 0 <= i <= MaxTcpUsers && Shaped()
        invariant Step(Snapshot(), effects, routes, status) == PassPrefix(s0, p, i)
        invariant status == Running
      {
        var e, rs, st := DispatchEvent(i, p[i]);
        effects, routes, status := effects + e, routes + rs, st;
        i := i + 1;
        if status != Running {
          PassStops(s0, p, i, |p|);
          return;
        }
      }
    }

    /** One more pass of the outer loop, after n passes that left it running. */
    method NextPass(ghost s0: State, passes: seq<seq<Reply>>, n: nat)
      returns (effects: seq<Effect>, routes: seq<Route>, status: Status)
      requires Shaped() && |s0.slots| == MaxTcpUsers && n < |passes|
      requires forall k :: 0 <= k < |passes| ==> WellFormedPass(passes[k])
      requires RunPrefix(s0, passes, n).state == Snapshot() && RunPrefix(s0, passes, n).status == Running
      modifies this, slots
      ensures Shaped()
      ensures RunPrefix(s0, passes, n + 1) == Then(RunPrefix(s0, passes, n), Step(Snapshot(), effects, routes, status))
    {
      effects, routes, status := RunPass(passes[n]);
      RunPrefixNext(s0, passes, n);
    }

    /** The first |passes| passes of the outer `while (true)` loop, leaving it at
        the first pass that ends main, reaches undefined behaviour or ends the
        process. */
    method Run(passes: seq<seq<Reply>>) returns (effects: seq<Effect>, routes: seq<Route>, status: Status)
      requires Shaped() && forall k :: 0 <= k < |passes| ==> WellFormedPass(passes[k])
      modifies this, slots
      ensures Shaped()
      ensures Step(Snapshot(), effects, routes, status) == RunPrefix(old(Snapshot()), passes, |passes|)
      ensures Extends(old(Snapshot()), Snapshot())
      ensures Valid(old(Snapshot())) && status == Running ==> Valid(Snapshot())
    {
      ghost var s0 := Snapshot();
      effects, routes, status := [], [], Running;
      var n := 0;
      while n < |passes| && status == Running
        invariant 0 <= n <= |passes| && Shaped()
        invariant Step(Snapshot(), effects, routes, status) == RunPrefix(s0, passes, n)
      {
        var e, rs, st := NextPass(s0, passes, n);
        effects, routes, status := effects + e, routes + rs, st;
        n := n + 1;
      }
      RunComplete(s0, passes, n, Step(Snapshot(), effects, routes, status));
    }
  }
}
